=== FILE: README.md ===
# MailChimp Export API 1.0 client: a verified model

This project models the core of the export API client in
`lib/mailchimp/MailChimpExportAPI_v1_0.js`. It covers three parts:

- **Request building.** The constructor derives the datacenter, host and base URI from the API key and the `secure` option. `execute` builds the query from the operation's allow-list, always putting `apikey` first, and composes the request URI.
- **Response framing.** `listProcess` and `campaignSubscriberActivityProcess` split a newline-delimited body. They parse each non-empty line and report a service error when the *first* record carries a truthy `error` field. The activity framer does not throw on a bad line: it leaves that line out and returns the last such line as the *remainder*.
- **The streaming adapter.** `stream.write` frames the stored remainder followed by each chunk. A batch of records replaces the remainder and is emitted as one `data` event. A service error emits an `error` event and leaves the remainder as it was.

Everything is a pure function over immutable values:

- `undefined` is `Option.None`.
- JavaScript string coercion of `undefined` is the text `"undefined"` (`JsonValues.ToText`).
- Where JavaScript throws and nothing catches the exception, the model has an explicit outcome: `Frame.Threw` for a framer, `Event.Crash` for a stream write.

JSON parsing is a parameter `parse: string -> Option<Json>`, where `None` means `JSON.parse` throws. `querystring.stringify` is a parameter `stringify`. The transport is an input: a `Delivery` for a buffered call (connection failure, or a possibly undefined body) and a sequence of chunks for a streaming call. The name-built lookup `eval("self."+method+"Process")` becomes the explicit map `Requests.Processors`. `execute` is only ever called with the two literal names `list` and `campaignSubscriberActivity`, and for a name that is a JavaScript identifier the lookup is a plain property read, which the map reproduces.

Files:
- `wrappers.dfy`: `Option`.
- `json.dfy`: parsed JSON values, truthiness, property reads and the service-error predicate.
- `lines.dfy`: `split`/`join` on one character, and how splitting behaves on concatenations.
- `framing.dfy`: the two framers, their loops, and reference definitions of what they return.
- `streaming.dfy`: the stream step, the fold over chunks, and the streaming theorems.
- `requests.dfy`: the constructor, parameter filtering, operations, dispatch, and the buffered and streaming paths.

## Behaviour worth knowing

The model keeps these behaviours of the code as they are:

- **Which lines become the remainder.** The activity framer drops every non-empty line that fails to parse, wherever it is, and the last failing line becomes the remainder. `Framing.LastFailure` and `Framing.ActivityProcess` model the code.
- **End of stream.** When the stream ends, the stored remainder is discarded, not parsed.
- **Undefined remainder.** A framer can return no remainder. This always happens with `listProcess`, and with the activity framer when every line parsed. The next write then frames the text `undefined` followed by the chunk, because line 74 coerces `undefined` to text.
- **`listProcess` errors.** A bad line in a `listProcess` body is an uncaught exception, not a parse error passed to the callback.
- **Datacenter.** The datacenter is the second `-`-separated segment of the key. Any later segments are ignored.
- **`apikey` protection.** `apikey` cannot be overridden only because neither allow-list names it. `Requests.FinalParamsFilters` shows that an allow-list naming `apikey` would let the caller replace it.
- **Transport errors when streaming.** A transport error on a streaming request is not forwarded to the stream: the code registers no handler for it.
- **An error ends the stream's input.** `req.pipe(stream)` (line 101) registers an `error` handler on the stream. After the first `error` event, that handler detaches the request, so no later chunk is written and `end` is never emitted. `Streaming.RunFrom` stops at the first error event, as it does at a write that throws.
- **Response status.** The buffered path ignores the HTTP status: any response with a body goes to the framer.
- **Undefined parameters.** Calling an operation with `undefined` or `null` in place of the parameters throws at line 50 when `execute` reads `stream`, before any request is sent. Only a function in that place is replaced by `{}`. A streaming call also throws before sending anything when no callback is passed, because line 94 calls the callback with the stream before line 96 makes the request.

## Model

| member | source | states |
|---|---|---|
| Lines.Split | lib/mailchimp/MailChimpExportAPI_v1_0.js:160 | `split` yields at least one piece and no piece contains the separator |
| Lines.JoinSplit | lib/mailchimp/MailChimpExportAPI_v1_0.js:201 | splitting loses nothing: joining the pieces with the separator gives back the body |
| Lines.SplitResume | lib/mailchimp/MailChimpExportAPI_v1_0.js:74 | splitting `earlier + chunk` gives the closed lines of the earlier text, then the split of its unfinished line extended by the chunk; this is why carrying only the unfinished line forward suffices |
| Lines.SplitAppend | lib/mailchimp/MailChimpExportAPI_v1_0.js:74 | splitting a concatenation keeps every piece except that the last piece of the first text fuses with the first piece of the second |
| Framing.LastFailure | lib/mailchimp/MailChimpExportAPI_v1_0.js:203-212 | the chosen line is a non-empty line that fails to parse, and no later line fails; there is none exactly when every non-empty line parses |
| Framing.ListLoopMatches | lib/mailchimp/MailChimpExportAPI_v1_0.js:160-166 | the loop of `listProcess` returns the records of the non-empty lines in order when they all parse, and throws otherwise |
| Framing.ActivityLoopMatches | lib/mailchimp/MailChimpExportAPI_v1_0.js:201-212 | the loop of the activity framer returns the records of the non-empty lines that parse, in order, and the last line that fails as the remainder |
| Framing.ListProcess | lib/mailchimp/MailChimpExportAPI_v1_0.js:158-173 | an undefined body or a bad non-empty line throws; otherwise a service error exactly when the first record has a truthy `error`, built from its `error` and `code`; otherwise the records of the non-empty lines in order, with no remainder |
| Framing.ActivityProcess | lib/mailchimp/MailChimpExportAPI_v1_0.js:193-219 | an undefined body is an empty success; otherwise it never throws; a service error exactly when the first parsed record has a truthy `error`; otherwise the records of the lines that parse, with the last failing line as the remainder |
| Framing.BufferedRoundTrip | lib/mailchimp/MailChimpExportAPI_v1_0.js:158-219 | a body of N records, each written as one line and each followed by a newline, frames back to exactly those N records in order under both framers, unless the first reports a service error |
| Streaming.Step | lib/mailchimp/MailChimpExportAPI_v1_0.js:73-82 | a write never ends the stream; the remainder changes only when a batch is emitted; an error event only ever carries a service error; a missing framer makes the write throw |
| Streaming.ActivityStep | lib/mailchimp/MailChimpExportAPI_v1_0.js:73-82 | for every stored remainder and chunk, an activity write frames the remainder as text followed by the chunk: a service error in the first record is an error event that keeps the remainder; otherwise the records of all parseable lines are one batch and the last failing line becomes the remainder |
| Streaming.ListStep | lib/mailchimp/MailChimpExportAPI_v1_0.js:73-82 | for every stored remainder and chunk, a list write frames the same text: a failing non-empty line makes it throw; a service error in the first record is an error event that keeps the remainder; otherwise every record is one batch and the remainder becomes undefined |
| Streaming.RunFrom | lib/mailchimp/MailChimpExportAPI_v1_0.js:73-92 | each chunk produces one data event until a write throws or emits an error, and that event is the last; otherwise the stream ends with the end event after exactly one data event per chunk |
| Streaming.ValidBody | lib/mailchimp/MailChimpExportAPI_v1_0.js:193-219 | a body of valid closed lines whose unfinished line does not parse frames to the records of its closed lines, with the unfinished line as the remainder; with a final newline, `listProcess` agrees |
| Streaming.StepValid | lib/mailchimp/MailChimpExportAPI_v1_0.js:73-82 | a write in a well-formed body emits the records of the lines it closes as one batch and stores the line it leaves unfinished |
| Streaming.RunFromValid | lib/mailchimp/MailChimpExportAPI_v1_0.js:71-92 | streaming a well-formed body from a stored unfinished line emits one batch per chunk and then the end; the batches together hold every closed line's record in order |
| Streaming.StreamingMatchesBuffered | lib/mailchimp/MailChimpExportAPI_v1_0.js:67-94 | for any cut of a well-formed body into chunks that each stop mid-line, the activity stream's batches concatenate to exactly the buffered activity result for the whole body (and to `listProcess`'s records when the body ends with a newline), and the final unfinished line is never emitted |
| Streaming.RemainderCompletes | lib/mailchimp/MailChimpExportAPI_v1_0.js:74-79 | a record cut by a chunk boundary is completed by the next write and is the first record of the next batch |
| Streaming.ListStreamStopsAfterFirstBatch | lib/mailchimp/MailChimpExportAPI_v1_0.js:74-78 | a stream of the list operation that has emitted one batch throws on its second write, because the stored remainder is undefined and the framed text starts with `undefined` |
| Streaming.ListWriteAfterUndefined | lib/mailchimp/MailChimpExportAPI_v1_0.js:74 | a list-stream write with an undefined remainder throws and leaves the remainder unchanged |
| Streaming.ActivityLosesLineAfterUndefined | lib/mailchimp/MailChimpExportAPI_v1_0.js:74-78 | after an undefined remainder, the next chunk's first line never becomes a record, and when that write emits a batch it leaves a defined remainder |
| Requests.DatacenterIsSecondSegment | lib/mailchimp/MailChimpExportAPI_v1_0.js:25-26 | for a key `<id>-<dc>` or `<id>-<dc>-…`, the datacenter is `dc` |
| Requests.DatacenterAbsent | lib/mailchimp/MailChimpExportAPI_v1_0.js:25-26 | the datacenter is undefined exactly when the key contains no `-` |
| Requests.ClientEndpoint | lib/mailchimp/MailChimpExportAPI_v1_0.js:23-28 | the host is `dc.api.mailchimp.com`; the base URI is `https://host:443` when `secure` is truthy and `http://host:80` otherwise |
| Requests.ClientWithoutDatacenter | lib/mailchimp/MailChimpExportAPI_v1_0.js:25-27 | a key without `-` gives the host `undefined.api.mailchimp.com` |
| Requests.SchemeFollowsSecure | lib/mailchimp/MailChimpExportAPI_v1_0.js:23-28 | the base URI starts with `https://` exactly when `options.secure` is truthy |
| Requests.Put | lib/mailchimp/MailChimpExportAPI_v1_0.js:58 | assigning a property adds exactly that key, reads back the new value, leaves every other key's value alone, keeps keys distinct; a new key goes at the end, and an existing key keeps its place with every key in the same order |
| Requests.FilterLoopKeeps | lib/mailchimp/MailChimpExportAPI_v1_0.js:55-59 | the filtering loop adds exactly the allowed names that were given, binds each to its given value, and leaves every other key as it was |
| Requests.FinalParamsFilters | lib/mailchimp/MailChimpExportAPI_v1_0.js:52-59 | the query has `apikey` first and otherwise exactly the allowed, given parameters, each once with its given value; `apikey` keeps the configured key unless the allow-list names it |
| Requests.FinalParamsInOrder | lib/mailchimp/MailChimpExportAPI_v1_0.js:52-59 | for an allow-list without repeats that does not name `apikey`, the query is the configured key followed by the given allowed parameters in allow-list order |
| Requests.OperationParams | lib/mailchimp/MailChimpExportAPI_v1_0.js:144-187 | both operations have a registered framer; their query is the configured key, then the given allowed parameters; `apikey` cannot be overridden and no unlisted parameter (such as `stream`) is forwarded |
| Requests.BufferedReply | lib/mailchimp/MailChimpExportAPI_v1_0.js:112-132 | a transport error gives exactly the fixed connection error; a registered framer gets the body; otherwise the whole body is parsed, and a failed parse gives the fixed parse error, never a partial result |
| Requests.Execute | lib/mailchimp/MailChimpExportAPI_v1_0.js:46-67 | the request URI is the base URI, `/export/1.0/`, the operation name, `/?` and the query; the call streams exactly when `stream` is truthy |
| Requests.Invoke | lib/mailchimp/MailChimpExportAPI_v1_0.js:50-96 | calling an operation sends no request exactly when its parameters are `undefined` or `null` (reading `stream` from them throws), or when it asks for a stream without passing a callback (the stream is handed to the callback before the request is made) |
| Requests.CallbackOnlyIsEmpty | lib/mailchimp/MailChimpExportAPI_v1_0.js:144-145 | passing the callback in place of the parameters is the same call as passing `{}` |
| Requests.InvokeUri | lib/mailchimp/MailChimpExportAPI_v1_0.js:61-62 | unless the parameters are undefined or a streaming call has no callback, an operation sends a request whose URI is the base URI, `/export/1.0/<name>/?` and the query of the configured key followed by the given allowed parameters |
| Requests.ListDispatch | lib/mailchimp/MailChimpExportAPI_v1_0.js:64-120 | `list` is served by `listProcess`: a buffered call that got a response gives `listProcess` of the body, and a streaming call is the list stream fed the chunks; a call with undefined parameters sends nothing |
| Requests.ActivityDispatch | lib/mailchimp/MailChimpExportAPI_v1_0.js:64-120 | `campaignSubscriberActivity` is served by `campaignSubscriberActivityProcess`, for buffered and streaming calls alike; a call with undefined parameters sends nothing |
| Requests.UnregisteredDispatch | lib/mailchimp/MailChimpExportAPI_v1_0.js:64-130 | a method name that is a JavaScript identifier and has no framer parses a buffered body as one document, or gives the parse error; its stream throws on the first chunk because it calls `undefined` |

## Left out

- HTTP execution through `request`, and the pause/resume forwarding (lines 96-109). These are transport and flow control. The transport's results are inputs instead. Of `req.pipe(stream)`, the model keeps what reaches the stream: the chunks in order, then `end`, with input stopped after an `error` event.
- Event-emitter timing and listener attachment (lines 68-94). Emissions are an ordered list of events per call. The model assumes an `error` listener is attached; Node throws on an `error` emission with no listener.
- JSON text parsing and `querystring.stringify` (lines 61, 124, 165, 208). They are function parameters. URL encoding is not modelled.
- `helpers.createMailChimpError`: `lib/mailchimp/helpers.js` is not part of this model. It is the constructor `Framing.Error.ServiceError(message, code)`.
- The `User-Agent` header and `packageInfo` (lines 24, 29, 63). They are cosmetic configuration. Line 29 never falls back to `''`. Line 63 throws when `packageInfo` is missing. The model assumes the version wrapper supplies it.
- The name-built lookup of line 64 is a map from operation name to framer, faithful for names that are JavaScript identifiers (`Requests.Identifier`). Other text is evaluated as an expression: `list.x` or the empty name reads `undefined`, `a,self.list` reaches `listProcess`, and some names make `eval` throw. The model gives every unregistered name no framer and proves `Requests.UnregisteredDispatch` only for identifiers. Nothing in the module passes such a name.
- Requests.Invoke: a buffered call without a callback still sends its request, and then throws when the reply (lines 117-129) is handed to the missing callback. The model counts it as sent, and its `Call` records the reply that would have been handed over. A callback argument that is not a function is modelled as no callback.
- The version-dispatch wrapper `MailChimpExportAPI`, which is not part of this model.
- JSON numbers are exact reals, not IEEE doubles.
- Property reads (`JsonValues.Property`) see only the own fields of objects. The names read (`error`, `code`) exist on no other kind of JSON value.
- JavaScript orders integer-like property keys before all others. The model keeps plain insertion order, which agrees for every name in the two allow-lists.
- `for … in` over an array also visits inherited enumerable properties. The model visits only the array's elements.
- The `typeof params == 'function'` shuffle (lines 145 and 181) is the `Requests.Params` datatype: a parameter object with or without a callback, the callback in its place (`{}`), or `undefined`/`null` (the call throws). A property explicitly set to `undefined` is a missing key; both are treated the same at lines 57 and 50. A number, string or boolean in place of the parameters reads no allowed name and no `stream`, so it is the call with `{}`, and the model does not list it as a separate case.
- Streaming.Step: chunks are already-decoded text. Line 74 decodes each chunk on its own with `data.toString()`, because `request` is called without an encoding. A multi-byte UTF-8 character split between two chunks then becomes replacement characters, which the model does not represent.
- Streaming.StreamingMatchesBuffered: holds only for cuts at character boundaries, for the same reason as `Streaming.Step`.
- Streaming.StreamingMatchesBuffered: requires every chunk but the last to stop in the middle of a line whose text does not parse yet. Other cuts need not reproduce the buffered result, because of the undefined remainder that `Streaming.ActivityLosesLineAfterUndefined` and `Streaming.ListStreamStopsAfterFirstBatch` describe. The theorem is about the activity stream only: a list stream cut in the middle of a line throws on its first write, because `listProcess` throws on the unfinished line (`Streaming.ListStep`).
- Streaming.StreamingMatchesBuffered: requires that no line holds a service-error record, not only the first. A service-error record that opens a later write's batch rejects that whole write and keeps the old remainder. The buffered framer inspects only the first record of the whole body, so there the two results differ.

=== FILE: framing.dfy ===
/**
 The response framers of the export API (lib/mailchimp/MailChimpExportAPI_v1_0.js):
 `listProcess` and `campaignSubscriberActivityProcess`. Each turns a
 newline-delimited body into the records it carries, reports a service error
 when the first record carries an `error`, and the activity framer hands back
 the line it could not parse as the remainder a stream carries forward.
 */
module Framing {
  import opened Wrappers
  import opened JsonValues
  import Lines

  /** `JSON.parse` of one line: `None` where it throws. */
  type Parser = string -> Option<Json>

  const NewLine: char := '\n'

  /** The errors handed to callbacks: a plain `new Error(text)`, or the service's own error record. */
  datatype Error =
    | Fixed(text: string)
    | ServiceError(message: Json, code: Option<Json>)

  const ConnectionError: Error := Fixed("Unable to connect to the MailChimp API endpoint.")
  const ParseError: Error := Fixed("Error parsing JSON answer from MailChimp API.")

  /** What a framer hands its callback, or `Threw` when it throws instead of calling back. */
  datatype Frame =
    | Records(records: seq<Json>, remainder: Option<string>)
    | Rejected(error: Error)
    | Threw

  /** The framers registered for the operations. */
  datatype Processor = ListProcessor | ActivityProcessor

  /** A line the framers try to parse (it is not empty) and that does not parse. */
  predicate Fails(parse: Parser, line: string) {
    line != "" && parse(line).None?
  }

  /** No non-empty line fails to parse. */
  predicate AllParse(parse: Parser, lines: seq<string>) {
    forall i :: 0 <= i < |lines| ==> !Fails(parse, lines[i])
  }

  /** Reference definition: the records of the non-empty lines that parse, in their order. */
  function Parsed(parse: Parser, lines: seq<string>): seq<Json> {
    if |lines| == 0 then []
    else
      var head := if lines[0] != "" && parse(lines[0]).Some? then [parse(lines[0]).value] else [];
      head + Parsed(parse, lines[1..])
  }

  /** Reference definition: the last non-empty line that does not parse, wherever it stands. */
  function LastFailure(parse: Parser, lines: seq<string>): (r: Option<string>)
    ensures r.None? <==> AllParse(parse, lines)
    ensures r.Some? ==>
      exists i :: 0 <= i < |lines| && lines[i] == r.value && Fails(parse, lines[i]) &&
        forall j :: i < j < |lines| ==> !Fails(parse, lines[j])
  {
    if |lines| == 0 then None
    else
      var later := LastFailure(parse, lines[1..]);
      if later.Some? then later
      else if Fails(parse, lines[0]) then Some(lines[0])
      else None
  }

  /** The error built from a record that reports a service failure: its `error` and its `code`. */
  function ServiceFailure(first: Json): Error
    requires IsServiceError(first)
  {
    ServiceError(Property(first, "error").value, Property(first, "code"))
  }

  /** The common ending of both framers: only the first record is inspected for an error. */
  function Deliver(records: seq<Json>, remainder: Option<string>): Frame {
    if |records| > 0 && IsServiceError(records[0]) then Rejected(ServiceFailure(records[0]))
    else Records(records, remainder)
  }

  /** The loop of `listProcess`: parse every non-empty line in order; `None` once a parse throws. */
  function ListLoop(parse: Parser, lines: seq<string>, acc: seq<Json>): Option<seq<Json>>
    decreases |lines|
  {
    if |lines| == 0 then Some(acc)
    else if lines[0] == "" then ListLoop(parse, lines[1..], acc)
    else
      match parse(lines[0])
      case None => None
      case Some(j) => ListLoop(parse, lines[1..], acc + [j])
  }

  /** The loop of `campaignSubscriberActivityProcess`: a line that does not parse overwrites the remainder. */
  function ActivityLoop(parse: Parser, lines: seq<string>, acc: seq<Json>, remainder: Option<string>)
    : (seq<Json>, Option<string>)
    decreases |lines|
  {
    if |lines| == 0 then (acc, remainder)
    else if lines[0] == "" then ActivityLoop(parse, lines[1..], acc, remainder)
    else
      match parse(lines[0])
      case None => ActivityLoop(parse, lines[1..], acc, Some(lines[0]))
      case Some(j) => ActivityLoop(parse, lines[1..], acc + [j], remainder)
  }

  lemma {:induction false} ListLoopMatches(parse: Parser, lines: seq<string>, acc: seq<Json>)
    ensures ListLoop(parse, lines, acc) ==
      if AllParse(parse, lines) then Some(acc + Parsed(parse, lines)) else None
    decreases |lines|
  {
    if |lines| == 0 {
      assert acc + [] == acc;
    } else {
      var rest := lines[1..];
      AllParseCons(parse, lines);
      if lines[0] == "" {
        ListLoopMatches(parse, rest, acc);
        assert Parsed(parse, lines) == Parsed(parse, rest) by {
          assert Parsed(parse, lines) == [] + Parsed(parse, rest);
        }
      } else if parse(lines[0]).Some? {
        var j := parse(lines[0]).value;
        ListLoopMatches(parse, rest, acc + [j]);
        assert acc + [j] + Parsed(parse, rest) == acc + Parsed(parse, lines) by {
          assert Parsed(parse, lines) == [j] + Parsed(parse, rest);
        }
      } else {
        assert ListLoop(parse, lines, acc) == None;
      }
    }
  }

  lemma AllParseCons(parse: Parser, lines: seq<string>)
    requires |lines| > 0
    ensures AllParse(parse, lines) <==> !Fails(parse, lines[0]) && AllParse(parse, lines[1..])
  {
    assert forall i :: 0 < i < |lines| ==> lines[i] == lines[1..][i - 1];
  }

  lemma {:induction false} ActivityLoopMatches(
    parse: Parser, lines: seq<string>, acc: seq<Json>, remainder: Option<string>)
    ensures ActivityLoop(parse, lines, acc, remainder) ==
      (acc + Parsed(parse, lines),
       if AllParse(parse, lines) then remainder else LastFailure(parse, lines))
    decreases |lines|
  {
    if |lines| == 0 {
      assert acc + [] == acc;
    } else {
      var rest := lines[1..];
      assert AllParse(parse, lines) <==> !Fails(parse, lines[0]) && AllParse(parse, rest) by {
        assert forall i :: 0 < i < |lines| ==> lines[i] == rest[i - 1];
      }
      if lines[0] == "" {
        ActivityLoopMatches(parse, rest, acc, remainder);
        assert ActivityLoop(parse, lines, acc, remainder) == ActivityLoop(parse, rest, acc, remainder);
        assert Parsed(parse, lines) == [] + Parsed(parse, rest) == Parsed(parse, rest);
        assert LastFailure(parse, lines) == LastFailure(parse, rest);
      } else if parse(lines[0]).None? {
        ActivityLoopMatches(parse, rest, acc, Some(lines[0]));
        assert Parsed(parse, lines) == [] + Parsed(parse, rest) == Parsed(parse, rest);
      } else {
        var j := parse(lines[0]).value;
        ActivityLoopMatches(parse, rest, acc + [j], remainder);
        assert acc + [j] + Parsed(parse, rest) == acc + Parsed(parse, lines);
      }
    }
  }

  /**
   `listProcess` (lines 158-173). An undefined body or a non-empty line that does
   not parse throws, since nothing catches `JSON.parse`; otherwise the parsed
   records in order, unless the first one reports a service error.
   */
  function ListProcess(parse: Parser, data: Option<string>): (f: Frame)
    ensures data.None? ==> f == Threw
    ensures data.Some? ==>
      var lines := Lines.Split(data.value, NewLine);
      var records := Parsed(parse, lines);
      && (f.Threw? <==> !AllParse(parse, lines))
      && (f.Rejected? <==> AllParse(parse, lines) && |records| > 0 && IsServiceError(records[0]))
      && (f.Rejected? ==> f.error == ServiceFailure(records[0]))
      && (f.Records? ==> f.records == records && f.remainder == None)
  {
    match data
    case None => Threw
    case Some(text) =>
      var lines := Lines.Split(text, NewLine);
      ListLoopMatches(parse, lines, []);
      assert [] + Parsed(parse, lines) == Parsed(parse, lines);
      match ListLoop(parse, lines, [])
      case None => Threw
      case Some(records) => Deliver(records, None)
  }

  /**
   `campaignSubscriberActivityProcess` (lines 193-219). An undefined body is an
   empty success. Otherwise it never throws: lines that do not parse are left
   out of the records and the last of them becomes the remainder.
   */
  function ActivityProcess(parse: Parser, data: Option<string>): (f: Frame)
    ensures data.None? ==> f == Records([], None)
    ensures data.Some? ==>
      var lines := Lines.Split(data.value, NewLine);
      var records := Parsed(parse, lines);
      && !f.Threw?
      && (f.Rejected? <==> |records| > 0 && IsServiceError(records[0]))
      && (f.Rejected? ==> f.error == ServiceFailure(records[0]))
      && (f.Records? ==> f.records == records && f.remainder == LastFailure(parse, lines))
  {
    match data
    case None => Records([], None)
    case Some(text) =>
      var lines := Lines.Split(text, NewLine);
      ActivityLoopMatches(parse, lines, [], None);
      assert [] + Parsed(parse, lines) == Parsed(parse, lines);
      var (records, remainder) := ActivityLoop(parse, lines, [], None);
      Deliver(records, remainder)
  }

  /** The framer a processor names. */
  function Apply(p: Processor, parse: Parser, data: Option<string>): Frame {
    match p
    case ListProcessor => ListProcess(parse, data)
    case ActivityProcessor => ActivityProcess(parse, data)
  }

  /** The body a service sends for the given records: each record's text, each followed by a newline. */
  function Serialize(show: Json -> string, records: seq<Json>): string {
    if |records| == 0 then "" else show(records[0]) + [NewLine] + Serialize(show, records[1..])
  }

  /** The texts of the records, in order. */
  function Shown(show: Json -> string, records: seq<Json>): seq<string> {
    if |records| == 0 then [] else [show(records[0])] + Shown(show, records[1..])
  }

  /** `show` writes each record as one non-empty line that `parse` reads back as that record. */
  predicate Prints(parse: Parser, show: Json -> string, records: seq<Json>) {
    forall i :: 0 <= i < |records| ==>
      show(records[i]) != "" && NewLine !in show(records[i]) && parse(show(records[i])) == Some(records[i])
  }

  lemma {:induction false} SerializeSplits(parse: Parser, show: Json -> string, records: seq<Json>)
    requires Prints(parse, show, records)
    ensures Lines.Split(Serialize(show, records), NewLine) == Shown(show, records) + [""]
    decreases |records|
  {
    if |records| > 0 {
      var line, rest := show(records[0]), records[1..];
      assert Prints(parse, show, rest) by {
        assert forall i :: 0 <= i < |rest| ==> rest[i] == records[i + 1];
      }
      SerializeSplits(parse, show, rest);
      Lines.SplitClosedLine(line, Serialize(show, rest), NewLine);
    }
  }

  lemma {:induction false} ParsedShown(parse: Parser, show: Json -> string, records: seq<Json>)
    requires Prints(parse, show, records)
    ensures AllParse(parse, Shown(show, records) + [""])
    ensures Parsed(parse, Shown(show, records) + [""]) == records
    decreases |records|
  {
    var lines := Shown(show, records) + [""];
    if |records| == 0 {
      assert lines == [""];
    } else {
      var rest := records[1..];
      assert Prints(parse, show, rest) by {
        assert forall i :: 0 <= i < |rest| ==> rest[i] == records[i + 1];
      }
      ParsedShown(parse, show, rest);
      var restLines := Shown(show, rest) + [""];
      assert lines == [show(records[0])] + restLines;
      assert lines[1..] == restLines;
      assert forall i :: 1 <= i < |lines| ==> lines[i] == restLines[i - 1];
      assert Parsed(parse, lines) == [records[0]] + Parsed(parse, restLines);
    }
  }

  /**
   Buffered decoding of a well-formed body: the records the service wrote come
   back, all of them and in their order, from either framer; unless the first of
   them reports a service error, which then replaces the whole result.
   */
  lemma BufferedRoundTrip(parse: Parser, show: Json -> string, records: seq<Json>)
    requires Prints(parse, show, records)
    ensures var body := Some(Serialize(show, records));
      var expected :=
        if |records| > 0 && IsServiceError(records[0]) then Rejected(ServiceFailure(records[0]))
        else Records(records, None);
      ListProcess(parse, body) == expected && ActivityProcess(parse, body) == expected
  {
    SerializeSplits(parse, show, records);
    ParsedShown(parse, show, records);
  }
}

=== FILE: json.dfy ===
/**
 A parsed JSON value, as `JSON.parse` hands it to JavaScript code, with the two
 JavaScript notions the response framers rely on: truthiness and property reads.
 JSON text itself is never parsed here; parsers are parameters of the framers.
 */
module JsonValues {
  import opened Wrappers

  datatype Json =
    | JNull
    | JBool(b: bool)
    | JNumber(n: real)
    | JString(s: string)
    | JArray(items: seq<Json>)
    | JObject(fields: map<string, Json>)

  /** JavaScript truthiness: `null`, `false`, `0` and `""` are falsy, everything else is truthy. */
  predicate Truthy(j: Json) {
    match j
    case JNull => false
    case JBool(b) => b
    case JNumber(n) => n != 0.0
    case JString(s) => s != ""
    case _ => true
  }

  /**
   The property read `j.name`, `None` being `undefined`. Only object fields are
   modelled: the names read by the framers (`error`, `code`) are carried by no
   array, string, number, boolean or null.
   */
  function Property(j: Json, name: string): (r: Option<Json>)
    ensures r.Some? <==> j.JObject? && name in j.fields
    ensures r.Some? ==> r.value == j.fields[name]
  {
    if j.JObject? && name in j.fields then Some(j.fields[name]) else None
  }

  /** The guard `first && first.error`: a record that reports a failure of the service. */
  predicate IsServiceError(j: Json) {
    Truthy(j) && Property(j, "error").Some? && Truthy(Property(j, "error").value)
  }

  /** JavaScript string coercion of a possibly undefined string: `'' + undefined` is `"undefined"`. */
  function ToText(v: Option<string>): (t: string)
    ensures v.Some? ==> t == v.value
    ensures v.None? ==> t == "undefined"
  {
    match v
    case Some(s) => s
    case None => "undefined"
  }
}

=== FILE: lines.dfy ===
/**
 JavaScript's `String.prototype.split` with a one-character separator, its
 inverse `Array.prototype.join`, and the facts the streaming framer needs about
 splitting a text that arrives in pieces.
 */
module Lines {

  /** `s.split(sep)`: the maximal separator-free pieces of `s`, in order; `"".split(sep)` is `[""]`. */
  function Split(s: string, sep: char): (parts: seq<string>)
    ensures |parts| >= 1
    ensures forall i :: 0 <= i < |parts| ==> sep !in parts[i]
    decreases |s|
  {
    if |s| == 0 then [""]
    else
      var rest := Split(s[1..], sep);
      if s[0] == sep then [""] + rest
      else [[s[0]] + rest[0]] + rest[1..]
  }

  /** `parts.join(sep)`. */
  function Join(parts: seq<string>, sep: char): string
    requires |parts| >= 1
  {
    if |parts| == 1 then parts[0] else parts[0] + [sep] + Join(parts[1..], sep)
  }

  /** Every piece but the last: the lines that a separator has closed. */
  function Complete(s: string, sep: char): seq<string> {
    var parts := Split(s, sep);
    parts[..|parts| - 1]
  }

  /** The last piece: the text after the last separator, still waiting for its separator. */
  function Pending(s: string, sep: char): string {
    var parts := Split(s, sep);
    parts[|parts| - 1]
  }

  /** Joining the pieces gives back the text that was split. */
  lemma {:induction false} JoinSplit(s: string, sep: char)
    ensures Join(Split(s, sep), sep) == s
    decreases |s|
  {
    if |s| > 0 {
      var rest := Split(s[1..], sep);
      JoinSplit(s[1..], sep);
      if s[0] == sep {
        assert Split(s, sep)[1..] == rest;
        assert s == [sep] + s[1..];
      } else {
        var parts := Split(s, sep);
        if |rest| == 1 {
          assert parts == [[s[0]] + rest[0]];
          assert s == [s[0]] + s[1..];
        } else {
          assert parts[1..] == rest[1..];
          assert Join(rest, sep) == rest[0] + [sep] + Join(rest[1..], sep);
          assert s == [s[0]] + s[1..];
        }
      }
    }
  }

  /** A separator-free text splits into itself alone. */
  lemma {:induction false} SplitSeparatorFree(t: string, sep: char)
    requires sep !in t
    ensures Split(t, sep) == [t]
    decreases |t|
  {
    if |t| > 0 {
      SplitSeparatorFree(t[1..], sep);
      assert [t[0]] + t[1..] == t;
    }
  }

  /** Splitting yields a single piece exactly when the text holds no separator. */
  lemma SplitSingle(s: string, sep: char)
    ensures |Split(s, sep)| == 1 <==> sep !in s
  {
    var parts := Split(s, sep);
    JoinSplit(s, sep);
    if |parts| == 1 {
      assert Join(parts, sep) == parts[0];
    } else {
      assert s == parts[0] + [sep] + Join(parts[1..], sep);
      assert s[|parts[0]|] == sep;
    }
  }

  /** The pieces of `a + b` from those of `a` and of `b`: the last of `pa` and the first of `pb` fuse. */
  function Fuse(pa: seq<string>, pb: seq<string>): seq<string>
    requires |pa| >= 1 && |pb| >= 1
  {
    pa[..|pa| - 1] + [pa[|pa| - 1] + pb[0]] + pb[1..]
  }

  /** Splitting a text one character longer at the front. */
  lemma SplitCons(c: char, s: string, sep: char)
    ensures var rest := Split(s, sep);
      Split([c] + s, sep) == if c == sep then [""] + rest else [[c] + rest[0]] + rest[1..]
  {
    assert ([c] + s)[1..] == s;
  }

  lemma FuseSeparatorFirst(pa: seq<string>, pb: seq<string>)
    requires |pa| >= 1 && |pb| >= 1
    ensures Fuse([""] + pa, pb) == [""] + Fuse(pa, pb)
  {
    var qa := [""] + pa;
    assert qa[..|qa| - 1] == [""] + pa[..|pa| - 1];
    assert qa[|qa| - 1] == pa[|pa| - 1];
  }

  lemma FuseCharFirst(c: char, pa: seq<string>, pb: seq<string>)
    requires |pa| >= 1 && |pb| >= 1
    ensures var f := Fuse(pa, pb);
      Fuse([[c] + pa[0]] + pa[1..], pb) == [[c] + f[0]] + f[1..]
  {
    var qa := [[c] + pa[0]] + pa[1..];
    var f := Fuse(pa, pb);
    if |pa| == 1 {
      assert qa == [[c] + pa[0]];
      assert f == [pa[0] + pb[0]] + pb[1..];
      assert [c] + (pa[0] + pb[0]) == ([c] + pa[0]) + pb[0];
    } else {
      assert qa[..|qa| - 1] == [[c] + pa[0]] + pa[1..|pa| - 1];
      assert qa[|qa| - 1] == pa[|pa| - 1];
      assert f[0] == pa[0];
      assert f[1..] == pa[1..|pa| - 1] + [pa[|pa| - 1] + pb[0]] + pb[1..];
    }
  }

  /**
   Splitting a concatenation: the last piece of `a` and the first piece of `b`
   fuse into one piece, every other piece is kept.
   */
  lemma {:induction false} SplitAppend(a: string, b: string, sep: char)
    ensures Split(a + b, sep) == Fuse(Split(a, sep), Split(b, sep))
    decreases |a|
  {
    if |a| == 0 {
      var pb := Split(b, sep);
      assert a + b == b;
      assert Split(a, sep) == [""];
      assert "" + pb[0] == pb[0];
      assert [pb[0]] + pb[1..] == pb;
    } else {
      var a' := a[1..];
      var pa, pb := Split(a', sep), Split(b, sep);
      assert Split(a' + b, sep) == Fuse(pa, pb) by {
        SplitAppend(a', b, sep);
      }
      var f := Split(a' + b, sep);
      if a[0] == sep {
        assert Split(a, sep) == [""] + pa by {
          assert a == [a[0]] + a';
          SplitCons(a[0], a', sep);
        }
        assert Split(a + b, sep) == [""] + f by {
          assert a + b == [a[0]] + (a' + b);
          SplitCons(a[0], a' + b, sep);
        }
        FuseSeparatorFirst(pa, pb);
      } else {
        assert Split(a, sep) == [[a[0]] + pa[0]] + pa[1..] by {
          assert a == [a[0]] + a';
          SplitCons(a[0], a', sep);
        }
        assert Split(a + b, sep) == [[a[0]] + f[0]] + f[1..] by {
          assert a + b == [a[0]] + (a' + b);
          SplitCons(a[0], a' + b, sep);
        }
        FuseCharFirst(a[0], pa, pb);
      }
    }
  }

  /**
   The framer's view of a stream: splitting everything received so far gives the
   closed lines of the earlier text followed by the split of its pending piece
   extended by the new text.
   */
  lemma SplitResume(p: string, c: string, sep: char)
    ensures Split(p + c, sep) == Complete(p, sep) + Split(Pending(p, sep) + c, sep)
  {
    var t := Pending(p, sep);
    var pp, pc := Split(p, sep), Split(c, sep);
    assert Split(t + c, sep) == [t + pc[0]] + pc[1..] by {
      SplitSeparatorFree(t, sep);
      SplitAppend(t, c, sep);
    }
    assert Split(p + c, sep) == Fuse(pp, pc) by {
      SplitAppend(p, c, sep);
    }
    assert Fuse(pp, pc) == pp[..|pp| - 1] + ([t + pc[0]] + pc[1..]);
  }

  /** The closed lines and the pending piece of a text extended by `c`, from those of the text. */
  lemma ResumeParts(p: string, c: string, sep: char)
    ensures Complete(p + c, sep) == Complete(p, sep) + Complete(Pending(p, sep) + c, sep)
    ensures Pending(p + c, sep) == Pending(Pending(p, sep) + c, sep)
  {
    var closed := Complete(p, sep);
    var whole := Split(p + c, sep);
    var tail := Split(Pending(p, sep) + c, sep);
    SplitResume(p, c, sep);
    assert whole == closed + tail;
    assert Complete(p + c, sep) == whole[..|whole| - 1];
    assert Complete(Pending(p, sep) + c, sep) == tail[..|tail| - 1];
    assert whole[..|whole| - 1] == closed + tail[..|tail| - 1];
    assert whole[|whole| - 1] == tail[|tail| - 1];
  }

  /** Closing a text with one more separator closes its pending piece and opens an empty one. */
  lemma SplitTerminated(s: string, sep: char)
    ensures Split(s + [sep], sep) == Split(s, sep) + [""]
    ensures Complete(s + [sep], sep) == Split(s, sep)
    ensures Pending(s + [sep], sep) == ""
  {
    var ps := Split(s, sep);
    SplitAppend(s, [sep], sep);
    assert Split([sep], sep) == ["", ""] by {
      SplitCons(sep, [], sep);
      assert [sep] + [] == [sep];
    }
    assert ps[|ps| - 1] + "" == ps[|ps| - 1];
    assert ps[..|ps| - 1] + [ps[|ps| - 1]] == ps;
  }

  /** A separator-free line closed by a separator is one piece of whatever text follows it. */
  lemma SplitClosedLine(line: string, t: string, sep: char)
    requires sep !in line
    ensures Split(line + [sep] + t, sep) == [line] + Split(t, sep)
  {
    var after := Split(t, sep);
    assert Split(line + [sep], sep) == [line, ""] by {
      SplitSeparatorFree(line, sep);
      SplitTerminated(line, sep);
    }
    assert Split(line + [sep] + t, sep) == Fuse([line, ""], after) by {
      SplitAppend(line + [sep], t, sep);
    }
    assert Fuse([line, ""], after) == [line] + after by {
      assert "" + after[0] == after[0];
      assert [after[0]] + after[1..] == after;
    }
  }

  /** A separator-free prefix joins the first piece of whatever text follows it. */
  lemma SplitPrefixed(u: string, t: string, sep: char)
    requires sep !in u
    ensures var parts := Split(t, sep);
      Split(u + t, sep) == [u + parts[0]] + parts[1..]
  {
    SplitSeparatorFree(u, sep);
    SplitAppend(u, t, sep);
  }
}

=== FILE: requests.dfy ===
/**
 Request building and dispatch of the export API client
 (lib/mailchimp/MailChimpExportAPI_v1_0.js): the constructor's endpoint
 derivation, `execute`'s parameter filtering and URI composition, the two
 operations and their allow-lists, the lookup of an operation's framer, and the
 buffered and streaming paths. The transport is an input: what the buffered
 request's callback receives, and the chunks a streaming request delivers.
 */
module Requests {
  import opened Wrappers
  import opened JsonValues
  import Lines
  import opened Framing
  import opened Streaming

  const Version: string := "1.0"
  const ApiDomain: string := ".api.mailchimp.com"
  const ApiKeyName: string := "apikey"

  /** The fields the constructor sets that requests use. */
  datatype Client = Client(
    apiKey: string,
    secure: bool,
    datacenter: Option<string>,
    httpHost: string,
    httpUri: string)

  /** `apiKey.split('-')[1]`: the second `-`-separated segment, undefined when the key has no `-`. */
  function Datacenter(apiKey: string): Option<string> {
    var segments := Lines.Split(apiKey, '-');
    if |segments| > 1 then Some(segments[1]) else None
  }

  /**
   The constructor (lines 16-31). `secure` is the value of `options.secure`,
   `None` when it or the options are missing; only its truthiness matters.
   */
  function NewClient(apiKey: string, secure: Option<Json>): Client {
    var on := secure.Some? && Truthy(secure.value);
    var datacenter := Datacenter(apiKey);
    var host := ToText(datacenter) + ApiDomain;
    Client(apiKey, on, datacenter, host, if on then "https://" + host + ":443" else "http://" + host + ":80")
  }

  /** The key `<id>-<dc>`, or `<id>-<dc>-...`: its datacenter is `dc`. */
  lemma DatacenterIsSecondSegment(id: string, dc: string, tail: string)
    requires '-' !in id && '-' !in dc
    requires tail == "" || tail[0] == '-'
    ensures Datacenter(id + "-" + dc + tail) == Some(dc)
  {
    var after := Lines.Split(tail, '-');
    assert id + "-" + dc + tail == id + ['-'] + (dc + tail);
    Lines.SplitClosedLine(id, dc + tail, '-');
    Lines.SplitPrefixed(dc, tail, '-');
    if tail == "" {
      assert after == [""];
    } else {
      Lines.SplitCons('-', tail[1..], '-');
      assert tail == ['-'] + tail[1..];
    }
    assert after[0] == "";
    assert dc + after[0] == dc;
  }

  /** The datacenter is undefined exactly when the key holds no `-`. */
  lemma DatacenterAbsent(apiKey: string)
    ensures Datacenter(apiKey).None? <==> '-' !in apiKey
  {
    Lines.SplitSingle(apiKey, '-');
  }

  /**
   The endpoint of a client whose key names datacenter `dc`: `https` on port 443
   when `secure` is truthy, `http` on port 80 otherwise, on host `dc.api.mailchimp.com`.
   */
  lemma ClientEndpoint(id: string, dc: string, tail: string, secure: Option<Json>)
    requires '-' !in id && '-' !in dc
    requires tail == "" || tail[0] == '-'
    ensures var c := NewClient(id + "-" + dc + tail, secure);
      var host := dc + ".api.mailchimp.com";
      && c.httpHost == host
      && c.secure == (secure.Some? && Truthy(secure.value))
      && c.httpUri == if c.secure then "https://" + host + ":443" else "http://" + host + ":80"
  {
    DatacenterIsSecondSegment(id, dc, tail);
  }

  /** A key without `-` sends every request to the host `undefined.api.mailchimp.com`. */
  lemma ClientWithoutDatacenter(apiKey: string, secure: Option<Json>)
    requires '-' !in apiKey
    ensures NewClient(apiKey, secure).httpHost == "undefined.api.mailchimp.com"
  {
    DatacenterAbsent(apiKey);
  }

  /** The scheme is `https` exactly when `options.secure` is truthy. */
  lemma SchemeFollowsSecure(apiKey: string, secure: Option<Json>)
    ensures var uri := NewClient(apiKey, secure).httpUri;
      (|uri| >= 8 && uri[..8] == "https://") <==> secure.Some? && Truthy(secure.value)
  {
    var c := NewClient(apiKey, secure);
    if !c.secure {
      assert c.httpUri[4] == ':';
    } else {
      assert c.httpUri[..8] == "https://";
    }
  }

  /** A JavaScript object with string keys: its properties in insertion order. */
  type Fields = seq<(string, Json)>

  function Keys(obj: Fields): set<string> {
    if |obj| == 0 then {} else {obj[0].0} + Keys(obj[1..])
  }

  /** No key occurs twice. */
  predicate DistinctKeys(obj: Fields) {
    |obj| == 0 || (obj[0].0 !in Keys(obj[1..]) && DistinctKeys(obj[1..]))
  }

  /** The property read `obj[key]`. */
  function Get(obj: Fields, key: string): Option<Json> {
    if |obj| == 0 then None
    else if obj[0].0 == key then Some(obj[0].1)
    else Get(obj[1..], key)
  }

  /** `obj[key] = value`: an existing property keeps its place and takes the value, a new one goes last. */
  function Put(obj: Fields, key: string, value: Json): (r: Fields)
    ensures Keys(r) == Keys(obj) + {key}
    ensures DistinctKeys(obj) ==> DistinctKeys(r)
    ensures Get(r, key) == Some(value)
    ensures forall k :: k != key ==> Get(r, k) == Get(obj, k)
    ensures key !in Keys(obj) ==> r == obj + [(key, value)]
    ensures |obj| > 0 ==> r[0].0 == obj[0].0
    ensures key in Keys(obj) ==> |r| == |obj| && forall i :: 0 <= i < |r| ==> r[i].0 == obj[i].0
    decreases |obj|
  {
    if |obj| == 0 then [(key, value)]
    else if obj[0].0 == key then
      assert Keys(obj) == {key} + Keys(obj[1..]);
      [(key, value)] + obj[1..]
    else
      var rest := Put(obj[1..], key, value);
      assert Keys(obj) == {obj[0].0} + Keys(obj[1..]);
      assert Keys([obj[0]] + rest) == {obj[0].0} + Keys(rest);
      assert ([obj[0]] + rest)[1..] == rest;
      [obj[0]] + rest
  }

  /** The loop of lines 55-59: copy each allowed parameter whose given value is defined. */
  function FilterLoop(allowed: seq<string>, given: map<string, Json>, obj: Fields): Fields
    decreases |allowed|
  {
    if |allowed| == 0 then obj
    else
      var name := allowed[0];
      FilterLoop(allowed[1..], given, if name in given then Put(obj, name, given[name]) else obj)
  }

  /** `finalParams` (lines 52-59): the API key first, then the allowed parameters. */
  function FinalParams(apiKey: string, allowed: seq<string>, given: map<string, Json>): Fields {
    FilterLoop(allowed, given, [(ApiKeyName, JString(apiKey))])
  }

  /** Reference definition: the allowed parameters that were given, in allow-list order, with their values. */
  function Selected(allowed: seq<string>, given: map<string, Json>): Fields {
    if |allowed| == 0 then []
    else
      var name := allowed[0];
      (if name in given then [(name, given[name])] else []) + Selected(allowed[1..], given)
  }

  /** The allowed names that were given. */
  function Chosen(allowed: seq<string>, given: map<string, Json>): set<string> {
    set name | name in allowed && name in given
  }

  lemma {:induction false} FilterLoopKeeps(allowed: seq<string>, given: map<string, Json>, obj: Fields)
    requires |obj| >= 1 && DistinctKeys(obj)
    ensures var r := FilterLoop(allowed, given, obj);
      && |r| >= 1 && r[0].0 == obj[0].0
      && DistinctKeys(r)
      && Keys(r) == Keys(obj) + Chosen(allowed, given)
      && (forall k :: k in allowed && k in given ==> Get(r, k) == Some(given[k]))
      && (forall k :: k !in allowed ==> Get(r, k) == Get(obj, k))
    decreases |allowed|
  {
    if |allowed| == 0 {
      assert Chosen(allowed, given) == {};
    } else {
      var name, rest := allowed[0], allowed[1..];
      var next := if name in given then Put(obj, name, given[name]) else obj;
      FilterLoopKeeps(rest, given, next);
      assert Chosen(allowed, given) == Chosen(rest, given) + (if name in given then {name} else {}) by {
        assert forall k :: k in allowed <==> k == name || k in rest;
      }
      var r := FilterLoop(allowed, given, obj);
      forall k | k in allowed && k in given
        ensures Get(r, k) == Some(given[k])
      {
        if k !in rest {
          assert k == name;
        }
      }
    }
  }

  /**
   Parameter filtering: the request carries the key `apikey` and, besides it,
   exactly the allowed parameters that were given, each once and with its given
   value; `apikey` comes first and keeps the configured key unless the allow-list
   itself names `apikey`.
   */
  lemma FinalParamsFilters(apiKey: string, allowed: seq<string>, given: map<string, Json>)
    ensures var r := FinalParams(apiKey, allowed, given);
      && |r| >= 1 && r[0].0 == ApiKeyName
      && DistinctKeys(r)
      && Keys(r) == {ApiKeyName} + Chosen(allowed, given)
      && (forall k :: k in allowed && k in given ==> Get(r, k) == Some(given[k]))
      && (ApiKeyName !in allowed ==> Get(r, ApiKeyName) == Some(JString(apiKey)))
  {
    var start: Fields := [(ApiKeyName, JString(apiKey))];
    assert Keys(start) == {ApiKeyName};
    FilterLoopKeeps(allowed, given, start);
  }

  /** No name occurs twice in an allow-list. */
  predicate NoRepeats(names: seq<string>) {
    |names| == 0 || (names[0] !in names[1..] && NoRepeats(names[1..]))
  }

  lemma {:induction false} FilterLoopAppends(allowed: seq<string>, given: map<string, Json>, obj: Fields)
    requires NoRepeats(allowed)
    requires forall name :: name in allowed ==> name !in Keys(obj)
    ensures FilterLoop(allowed, given, obj) == obj + Selected(allowed, given)
    decreases |allowed|
  {
    if |allowed| == 0 {
      assert obj + [] == obj;
    } else {
      var name, rest := allowed[0], allowed[1..];
      var head: Fields := if name in given then [(name, given[name])] else [];
      var next := obj + head;
      assert name !in Keys(obj) && name !in rest by {
        assert name in allowed;
      }
      assert FilterLoop(allowed, given, obj) == FilterLoop(rest, given, next) by {
        if name in given {
          assert Put(obj, name, given[name]) == next;
        } else {
          assert next == obj;
        }
      }
      assert forall n :: n in rest ==> n !in Keys(next) by {
        assert Keys(next) <= Keys(obj) + {name} by {
          if name in given {
            assert Put(obj, name, given[name]) == next;
          } else {
            assert next == obj;
          }
        }
        assert forall n :: n in rest ==> n in allowed;
      }
      FilterLoopAppends(rest, given, next);
      assert Selected(allowed, given) == head + Selected(rest, given);
      AppendAssociates(obj, head, Selected(rest, given));
    }
  }

  lemma AppendAssociates(a: Fields, b: Fields, c: Fields)
    ensures (a + b) + c == a + (b + c)
  {
  }

  /**
   For an allow-list without repeats that does not name `apikey`, the query is
   `apikey` bound to the configured key, then the given allowed parameters in
   allow-list order.
   */
  lemma FinalParamsInOrder(apiKey: string, allowed: seq<string>, given: map<string, Json>)
    requires NoRepeats(allowed)
    requires ApiKeyName !in allowed
    ensures FinalParams(apiKey, allowed, given) == [(ApiKeyName, JString(apiKey))] + Selected(allowed, given)
  {
    var start: Fields := [(ApiKeyName, JString(apiKey))];
    assert Keys(start) == {ApiKeyName};
    FilterLoopAppends(allowed, given, start);
  }

  /** An export operation: its name and the parameters it forwards. */
  datatype Operation = Operation(name: string, allowed: seq<string>)

  /** `list` (lines 144-152). */
  const ListOperation: Operation := Operation("list", ["id", "status", "segment", "since"])

  /** `campaignSubscriberActivity` (lines 180-187). */
  const ActivityOperation: Operation :=
    Operation("campaignSubscriberActivity", ["id", "include_empty", "since"])

  /** The operations of this API version. */
  const Operations: seq<Operation> := [ListOperation, ActivityOperation]

  /**
   The registered framers, by operation name. This replaces the name-built
   lookup of line 64, and agrees with it for names that are identifiers.
   */
  const Processors: map<string, Processor> :=
    map["list" := ListProcessor, "campaignSubscriberActivity" := ActivityProcessor]

  function ProcessorFor(name: string): Option<Processor> {
    if name in Processors then Some(Processors[name]) else None
  }

  /**
   Every operation has a framer, forwards no parameter twice and never names
   `apikey`: its query is the configured key followed by the given allowed
   parameters, and a given `apikey` or any other unlisted parameter is dropped.
   */
  lemma OperationParams(op: Operation, apiKey: string, given: map<string, Json>)
    requires op in Operations
    ensures ProcessorFor(op.name).Some?
    ensures var r := FinalParams(apiKey, op.allowed, given);
      && r == [(ApiKeyName, JString(apiKey))] + Selected(op.allowed, given)
      && Get(r, ApiKeyName) == Some(JString(apiKey))
      && Keys(r) == {ApiKeyName} + Chosen(op.allowed, given)
      && (forall k :: k !in op.allowed && k != ApiKeyName ==> k !in Keys(r))
  {
    FinalParamsFilters(apiKey, op.allowed, given);
    FinalParamsInOrder(apiKey, op.allowed, given);
  }

  /** What the request callback of the buffered path receives (lines 115-116). */
  datatype Delivery = ConnectionFailed | Responded(body: Option<string>)

  /** What the caller's callback of the buffered path receives. */
  datatype Reply =
    | Processed(frame: Frame)
    | Document(doc: Json)
    | Failed(error: Error)

  /**
   The buffered path (lines 112-132): a transport error is the fixed connection
   error; a registered framer gets the body; otherwise the whole body is parsed
   as one document, and a failed parse is the fixed parse error, never a partial result.
   */
  function BufferedReply(processor: Option<Processor>, parse: Parser, delivery: Delivery): (r: Reply)
    ensures r == Failed(ConnectionError) <==> delivery.ConnectionFailed?
    ensures r.Processed? <==> delivery.Responded? && processor.Some?
    ensures r.Processed? ==> r.frame == Apply(processor.value, parse, delivery.body)
    ensures delivery.Responded? && processor.None? ==>
      && (r == Failed(ParseError) <==> delivery.body.None? || parse(delivery.body.value).None?)
      && (r.Document? <==> delivery.body.Some? && parse(delivery.body.value).Some?)
      && (r.Document? ==> Some(r.doc) == parse(delivery.body.value))
  {
    match delivery
    case ConnectionFailed => Failed(ConnectionError)
    case Responded(body) =>
      match processor
      case Some(p) => Processed(Apply(p, parse, body))
      case None =>
        match body
        case None => Failed(ParseError)
        case Some(text) =>
          match parse(text)
          case None => Failed(ParseError)
          case Some(doc) => Document(doc)
  }

  /** What a call produces: the buffered reply, or the stream's final remainder and its events. */
  datatype Outcome =
    | Buffered(reply: Reply)
    | Streamed(final: Option<string>, events: seq<Event>)

  /** The request a call sends and what comes of it. */
  datatype Call = Call(uri: string, outcome: Outcome)

  /** `givenParams.stream` is truthy. */
  predicate StreamRequested(given: map<string, Json>) {
    "stream" in given && Truthy(given["stream"])
  }

  /**
   `execute` (lines 46-136). `stringify` stands for `querystring.stringify`; the
   transport is given by `delivery` for a buffered call and by `chunks` for a
   streaming one.
   */
  function Execute(
    client: Client, name: string, allowed: seq<string>, given: map<string, Json>,
    stringify: Fields -> string, parse: Parser, delivery: Delivery, chunks: seq<string>): (c: Call)
    ensures c.uri == client.httpUri + "/export/1.0/" + name + "/?" + stringify(FinalParams(client.apiKey, allowed, given))
    ensures c.outcome.Streamed? <==> StreamRequested(given)
  {
    var query := stringify(FinalParams(client.apiKey, allowed, given));
    var uri := client.httpUri + "/export/" + Version + "/" + name + "/?" + query;
    var processor := ProcessorFor(name);
    if StreamRequested(given) then
      var (final, events) := Run(processor, parse, chunks);
      Call(uri, Streamed(final, events))
    else
      Call(uri, Buffered(BufferedReply(processor, parse, delivery)))
  }

  /**
   What an operation is called with (lines 144-145 and 180-181): its parameters
   and whether a function was passed as the callback.
   */
  datatype Params =
    | Given(fields: map<string, Json>, withCallback: bool)  // a parameter object
    | CallbackOnly                      // the callback itself; the parameters become `{}`
    | Absent                            // `undefined` or `null`: reading `stream` from it at line 50 throws

  /** The parameter object `execute` receives, for a call that reaches it. */
  function Supplied(params: Params): map<string, Json> {
    match params
    case Given(fields, _) => fields
    case CallbackOnly => map[]
    case Absent => map[]
  }

  /** Whether the call has a function to hand its result to. */
  predicate HasCallback(params: Params) {
    params.CallbackOnly? || (params.Given? && params.withCallback)
  }

  /** A call of an operation: it sends a request, or throws before sending one. */
  datatype Invocation = Sent(call: Call) | NotSent

  /**
   Calling an operation (`list` or `campaignSubscriberActivity`). Undefined
   parameters throw at line 50; a streaming call hands its stream to the
   callback at line 94 before the request of line 96, so without a callback it
   throws there.
   */
  function Invoke(
    client: Client, op: Operation, params: Params,
    stringify: Fields -> string, parse: Parser, delivery: Delivery, chunks: seq<string>): (r: Invocation)
    ensures r.NotSent? <==> params.Absent? || (!HasCallback(params) && StreamRequested(Supplied(params)))
  {
    if params.Absent? then NotSent
    else if !HasCallback(params) && StreamRequested(Supplied(params)) then NotSent
    else Sent(Execute(client, op.name, op.allowed, Supplied(params), stringify, parse, delivery, chunks))
  }

  /** Passing the callback in place of the parameters is calling with `{}`. */
  lemma CallbackOnlyIsEmpty(
    client: Client, op: Operation,
    stringify: Fields -> string, parse: Parser, delivery: Delivery, chunks: seq<string>)
    ensures Invoke(client, op, CallbackOnly, stringify, parse, delivery, chunks)
         == Invoke(client, op, Given(map[], true), stringify, parse, delivery, chunks)
  {
  }

  /**
   The request an operation sends: the client's base URI, `/export/1.0/`, the
   operation's name, `/?`, then the query of the configured key followed by the
   given allowed parameters in allow-list order. Undefined parameters send
   nothing, and neither does a streaming call without a callback.
   */
  lemma InvokeUri(
    client: Client, op: Operation, params: Params,
    stringify: Fields -> string, parse: Parser, delivery: Delivery, chunks: seq<string>)
    requires op in Operations
    ensures var r := Invoke(client, op, params, stringify, parse, delivery, chunks);
      !params.Absent? && (HasCallback(params) || !StreamRequested(Supplied(params))) ==>
        r.Sent? && r.call.uri ==
          client.httpUri + "/export/1.0/" + op.name + "/?"
          + stringify([(ApiKeyName, JString(client.apiKey))] + Selected(op.allowed, Supplied(params)))
  {
    OperationParams(op, client.apiKey, Supplied(params));
  }

  /**
   `list` reaches `listProcess`: a buffered call that got a response hands the
   body to it, and a streaming call feeds it the chunks.
   */
  lemma ListDispatch(
    client: Client, params: Params,
    stringify: Fields -> string, parse: Parser, delivery: Delivery, chunks: seq<string>)
    ensures ProcessorFor(ListOperation.name) == Some(ListProcessor)
    ensures var given := Supplied(params);
      var r := Invoke(client, ListOperation, params, stringify, parse, delivery, chunks);
      && (r.Sent? && !StreamRequested(given) && delivery.Responded? ==>
            r.call.outcome == Buffered(Processed(ListProcess(parse, delivery.body))))
      && (r.Sent? && StreamRequested(given) ==>
            r.call.outcome ==
              Streamed(Run(Some(ListProcessor), parse, chunks).0, Run(Some(ListProcessor), parse, chunks).1))
  {
  }

  /**
   `campaignSubscriberActivity` reaches `campaignSubscriberActivityProcess`: a
   buffered call that got a response hands the body to it, and a streaming call
   feeds it the chunks.
   */
  lemma ActivityDispatch(
    client: Client, params: Params,
    stringify: Fields -> string, parse: Parser, delivery: Delivery, chunks: seq<string>)
    ensures ProcessorFor(ActivityOperation.name) == Some(ActivityProcessor)
    ensures var given := Supplied(params);
      var r := Invoke(client, ActivityOperation, params, stringify, parse, delivery, chunks);
      && (r.Sent? && !StreamRequested(given) && delivery.Responded? ==>
            r.call.outcome == Buffered(Processed(ActivityProcess(parse, delivery.body))))
      && (r.Sent? && StreamRequested(given) ==>
            r.call.outcome ==
              Streamed(Run(Some(ActivityProcessor), parse, chunks).0, Run(Some(ActivityProcessor), parse, chunks).1))
  {
  }

  /**
   A JavaScript identifier in ASCII: letters, digits, `_` and `$`, not starting
   with a digit. For such a name, line 64 evaluates a plain property read.
   */
  predicate Identifier(name: string) {
    && |name| > 0
    && !('0' <= name[0] <= '9')
    && forall i :: 0 <= i < |name| ==>
         'a' <= name[i] <= 'z' || 'A' <= name[i] <= 'Z' || '0' <= name[i] <= '9' || name[i] == '_' || name[i] == '$'
  }

  /**
   A method name with no framer: a buffered call parses the whole body as one
   document, and a streaming call throws on its first chunk.
   */
  lemma UnregisteredDispatch(
    client: Client, name: string, allowed: seq<string>, given: map<string, Json>,
    stringify: Fields -> string, parse: Parser, delivery: Delivery, chunks: seq<string>)
    requires Identifier(name)
    requires forall op :: op in Operations ==> op.name != name
    ensures ProcessorFor(name).None?
    ensures var c := Execute(client, name, allowed, given, stringify, parse, delivery, chunks);
      && (!StreamRequested(given) && delivery.Responded? && delivery.body.Some? ==>
            c.outcome == Buffered(
              if parse(delivery.body.value).Some? then Document(parse(delivery.body.value).value) else Failed(ParseError)))
      && (StreamRequested(given) && |chunks| > 0 ==> c.outcome == Streamed(Fresh, [Crash]))
  {
    assert ListOperation in Operations && ActivityOperation in Operations;
  }
}

=== FILE: streaming.dfy ===
/**
 The streaming adapter of `execute` (lib/mailchimp/MailChimpExportAPI_v1_0.js,
 lines 67-94): a stream whose only state is `stream.remainder`. Every chunk
 written to it is framed together with the stored remainder; a batch of records
 replaces the remainder, a service error leaves it alone. The stream is modelled
 as a pure step and a fold of that step over the chunks the transport delivers.
 */
module Streaming {
  import opened Wrappers
  import opened JsonValues
  import Lines
  import opened Framing

  /** `stream.remainder` as set at line 71, before the first chunk. */
  const Fresh: Option<string> := Some("")

  /** What the stream emits, or `Crash` when a write throws instead of returning. */
  datatype Event =
    | Data(batch: seq<Json>)
    | Failure(error: Error)
    | End
    | Crash

  /**
   `stream.write(data)`: frame the stored remainder, coerced to text, followed by
   the chunk; a missing processor is a call of `undefined`, which throws.
   */
  function Step(processor: Option<Processor>, parse: Parser, stored: Option<string>, chunk: string)
    : (r: (Option<string>, Event))
    ensures processor.None? ==> r == (stored, Crash)
    ensures !r.1.End?
    ensures !r.1.Data? ==> r.0 == stored
    ensures r.1.Failure? ==> r.1.error.ServiceError?
  {
    match processor
    case None => (stored, Crash)
    case Some(p) =>
      match Apply(p, parse, Some(ToText(stored) + chunk))
      case Records(records, remainder) => (remainder, Data(records))
      case Rejected(e) => (stored, Failure(e))
      case Threw => (stored, Crash)
  }

  /**
   A write to a stream of the activity operation frames the stored remainder,
   coerced to text, followed by the chunk. A service error in the first record is
   an error event and keeps the remainder. Otherwise the records of every
   non-empty line that parses form one batch, and the last line that does not
   parse becomes the remainder, undefined when every line parsed.
   */
  lemma ActivityStep(parse: Parser, stored: Option<string>, chunk: string)
    ensures var lines := Lines.Split(ToText(stored) + chunk, NewLine);
      var records := Parsed(parse, lines);
      Step(Some(ActivityProcessor), parse, stored, chunk) ==
        if |records| > 0 && IsServiceError(records[0]) then (stored, Failure(ServiceFailure(records[0])))
        else (LastFailure(parse, lines), Data(records))
  {
  }

  /**
   A write to a stream of the list operation frames the same text. A non-empty
   line that does not parse makes the write throw. Otherwise a service error in
   the first record is an error event and keeps the remainder, and any other
   batch carries every record and leaves the remainder undefined.
   */
  lemma ListStep(parse: Parser, stored: Option<string>, chunk: string)
    ensures var lines := Lines.Split(ToText(stored) + chunk, NewLine);
      var records := Parsed(parse, lines);
      Step(Some(ListProcessor), parse, stored, chunk) ==
        if !AllParse(parse, lines) then (stored, Crash)
        else if |records| > 0 && IsServiceError(records[0]) then (stored, Failure(ServiceFailure(records[0])))
        else (None, Data(records))
  {
  }

  /**
   The stream fed with `chunks` in order by `req.pipe(stream)` (line 101),
   starting from `stored`, then ended by the transport. A write that throws
   stops everything after it. So does an `error` event: piping registers an
   `error` handler on the stream that unpipes the request, so no later chunk is
   written and the stream never ends.
   */
  function RunFrom(processor: Option<Processor>, parse: Parser, stored: Option<string>, chunks: seq<string>)
    : (r: (Option<string>, seq<Event>))
    ensures Shaped(r.1, |chunks|)
    decreases |chunks|
  {
    if |chunks| == 0 then (stored, [End])
    else
      var step := Step(processor, parse, stored, chunks[0]);
      if !step.1.Data? then (step.0, [step.1])
      else
        var rest := RunFrom(processor, parse, step.0, chunks[1..]);
        ShapedCons(step.1, rest.1, |chunks| - 1);
        (rest.0, [step.1] + rest.1)
  }

  /**
   The events of a stream fed `n` chunks: data events, then one closing event;
   the end comes after exactly one event per chunk, a crash or an error no later
   than the last chunk.
   */
  predicate Shaped(events: seq<Event>, n: nat) {
    && |events| >= 1
    && (forall i :: 0 <= i < |events| - 1 ==> events[i].Data?)
    && (events[|events| - 1].End? || events[|events| - 1].Crash? || events[|events| - 1].Failure?)
    && (events[|events| - 1].End? ==> |events| == n + 1)
    && (!events[|events| - 1].End? ==> 1 <= |events| <= n)
  }

  lemma ShapedCons(event: Event, events: seq<Event>, n: nat)
    requires event.Data? && Shaped(events, n)
    ensures Shaped([event] + events, n + 1)
  {
    var all := [event] + events;
    assert forall i :: 1 <= i < |all| ==> all[i] == events[i - 1];
    assert all[|all| - 1] == events[|events| - 1];
  }

  /** A fresh stream fed with `chunks`. */
  function Run(processor: Option<Processor>, parse: Parser, chunks: seq<string>): (Option<string>, seq<Event>) {
    RunFrom(processor, parse, Fresh, chunks)
  }

  /** All records the data events carry, in order. */
  function Batches(events: seq<Event>): seq<Json> {
    if |events| == 0 then []
    else (if events[0].Data? then events[0].batch else []) + Batches(events[1..])
  }

  /** The text of all chunks, in order. */
  function Concat(chunks: seq<string>): string {
    if |chunks| == 0 then "" else chunks[0] + Concat(chunks[1..])
  }

  /** Everything framed after the first `i` chunks of a stream whose stored remainder was `p`. */
  function Received(p: string, chunks: seq<string>, i: nat): string
    requires i <= |chunks|
  {
    p + Concat(chunks[..i])
  }

  /** An empty line, or one that parses to a record that does not report a service error. */
  predicate PlainRecordLine(parse: Parser, line: string) {
    line == "" || (parse(line).Some? && !IsServiceError(parse(line).value))
  }

  predicate AllPlainRecordLines(parse: Parser, lines: seq<string>) {
    forall i :: 0 <= i < |lines| ==> PlainRecordLine(parse, lines[i])
  }

  /** Text that stops in the middle of a line: the unfinished line is not empty and does not parse. */
  predicate MidLine(parse: Parser, s: string) {
    Lines.Pending(s, NewLine) != "" && parse(Lines.Pending(s, NewLine)).None?
  }

  /** Text whose unfinished line, if any, does not parse. */
  predicate Unfinished(parse: Parser, s: string) {
    Lines.Pending(s, NewLine) == "" || parse(Lines.Pending(s, NewLine)).None?
  }

  /**
   A well-formed body cut into chunks: every closed line is valid, every chunk
   but the last stops in the middle of a line, and an unfinished last line does
   not parse.
   */
  predicate Chunking(parse: Parser, p: string, chunks: seq<string>) {
    && AllPlainRecordLines(parse, Lines.Complete(Received(p, chunks, |chunks|), NewLine))
    && (forall i :: 1 <= i < |chunks| ==> MidLine(parse, Received(p, chunks, i)))
    && (|chunks| > 0 ==> Unfinished(parse, Received(p, chunks, |chunks|)))
  }

  lemma {:induction false} ParsedAppend(parse: Parser, a: seq<string>, b: seq<string>)
    ensures Parsed(parse, a + b) == Parsed(parse, a) + Parsed(parse, b)
    decreases |a|
  {
    if |a| > 0 {
      assert (a + b)[1..] == a[1..] + b;
      assert (a + b)[0] == a[0];
      ParsedAppend(parse, a[1..], b);
    } else {
      assert a + b == b;
    }
  }

  lemma {:induction false} ParsedValid(parse: Parser, lines: seq<string>)
    requires AllPlainRecordLines(parse, lines)
    ensures AllParse(parse, lines)
    ensures forall k :: 0 <= k < |Parsed(parse, lines)| ==> !IsServiceError(Parsed(parse, lines)[k])
    decreases |lines|
  {
    if |lines| > 0 {
      assert AllPlainRecordLines(parse, lines[1..]) by {
        assert forall i :: 0 <= i < |lines| - 1 ==> lines[1..][i] == lines[i + 1];
      }
      ParsedValid(parse, lines[1..]);
    }
  }

  lemma BatchesCons(event: Event, events: seq<Event>)
    ensures Batches([event] + events) == (if event.Data? then event.batch else []) + Batches(events)
  {
    assert ([event] + events)[1..] == events;
  }

  /**
   The lines of a body whose closed lines are valid and whose unfinished line
   does not parse: the records are those of the closed lines, none reports a
   service error, and the last failing line is the unfinished one, if any.
   */
  lemma ValidLines(parse: Parser, t: string)
    requires AllPlainRecordLines(parse, Lines.Complete(t, NewLine))
    requires Unfinished(parse, t)
    ensures var lines := Lines.Split(t, NewLine);
      && Parsed(parse, lines) == Parsed(parse, Lines.Complete(t, NewLine))
      && (forall k :: 0 <= k < |Parsed(parse, lines)| ==> !IsServiceError(Parsed(parse, lines)[k]))
      && LastFailure(parse, lines) == Leftover(t)
  {
    var closed, pending := Lines.Complete(t, NewLine), Lines.Pending(t, NewLine);
    assert Lines.Split(t, NewLine) == closed + [pending];
    ClosedRecords(parse, closed, pending);
    ClosedLastFailure(parse, closed, pending);
  }

  /** Plain record lines followed by an unfinished line that does not parse: the records of the closed lines. */
  lemma ClosedRecords(parse: Parser, closed: seq<string>, pending: string)
    requires AllPlainRecordLines(parse, closed)
    requires pending == "" || parse(pending).None?
    ensures Parsed(parse, closed + [pending]) == Parsed(parse, closed)
    ensures forall k :: 0 <= k < |Parsed(parse, closed)| ==> !IsServiceError(Parsed(parse, closed)[k])
  {
    ParsedValid(parse, closed);
    ParsedAppend(parse, closed, [pending]);
    assert Parsed(parse, [pending]) == [];
    assert Parsed(parse, closed) + [] == Parsed(parse, closed);
  }

  /** Plain record lines followed by an unfinished line that does not parse: that line is the last failure. */
  lemma ClosedLastFailure(parse: Parser, closed: seq<string>, pending: string)
    requires AllPlainRecordLines(parse, closed)
    requires pending == "" || parse(pending).None?
    ensures LastFailure(parse, closed + [pending]) == if pending == "" then None else Some(pending)
  {
    var lines := closed + [pending];
    if pending == "" {
      ParsedValid(parse, closed);
      assert AllParse(parse, lines) by {
        assert forall i :: 0 <= i < |closed| ==> lines[i] == closed[i];
      }
    } else {
      var r := LastFailure(parse, lines);
      assert Fails(parse, lines[|lines| - 1]);
      assert r.Some?;
      assert r.value == pending;
    }
  }

  /**
   A body of valid closed lines whose unfinished line does not parse frames to
   the records of its closed lines; the unfinished line, if any, is the remainder.
   With a final newline, `listProcess` frames it to the same records.
   */
  lemma ValidBody(parse: Parser, t: string)
    requires AllPlainRecordLines(parse, Lines.Complete(t, NewLine))
    requires Unfinished(parse, t)
    ensures ActivityProcess(parse, Some(t)) == Records(Parsed(parse, Lines.Complete(t, NewLine)), Leftover(t))
    ensures Lines.Pending(t, NewLine) == "" ==>
      ListProcess(parse, Some(t)) == Records(Parsed(parse, Lines.Complete(t, NewLine)), None)
  {
    ValidLines(parse, t);
  }

  /**
   One write in the middle of a well-formed body (the activity framer): the
   records of the lines this chunk closes are emitted as one batch, and the line
   it leaves unfinished becomes the stored remainder, or undefined when there is none.
   */
  lemma StepValid(parse: Parser, p: string, c: string)
    requires AllPlainRecordLines(parse, Lines.Complete(p + c, NewLine))
    requires Unfinished(parse, p + c)
    ensures Step(Some(ActivityProcessor), parse, Some(p), c) ==
      (Leftover(p + c), Data(Parsed(parse, Lines.Complete(p + c, NewLine))))
  {
    ValidBody(parse, p + c);
  }

  /** Concatenating chunks behind one more chunk, and taking a prefix of chunks behind it. */
  lemma ConcatCons(c: string, rest: seq<string>, i: nat)
    requires i <= |rest|
    ensures Concat([c] + rest) == c + Concat(rest)
    ensures ([c] + rest)[..i + 1] == [c] + rest[..i]
    ensures Concat([c] + rest[..i]) == c + Concat(rest[..i])
  {
    ConcatFront(c, rest);
    ConcatFront(c, rest[..i]);
  }

  lemma ConcatFront(c: string, rest: seq<string>)
    ensures Concat([c] + rest) == c + Concat(rest)
  {
    assert ([c] + rest)[1..] == rest;
  }

  /** The body after the first chunk: what that chunk closes, then the body seen from its unfinished line. */
  lemma BodyAfterFirst(p: string, c: string, rest: seq<string>)
    ensures var t := p + c;
      var body := Received(p, [c] + rest, |rest| + 1);
      var restBody := Received(Lines.Pending(t, NewLine), rest, |rest|);
      && Lines.Complete(body, NewLine) == Lines.Complete(t, NewLine) + Lines.Complete(restBody, NewLine)
      && Lines.Pending(body, NewLine) == Lines.Pending(restBody, NewLine)
  {
    var t := p + c;
    ConcatCons(c, rest, |rest|);
    assert rest[..|rest|] == rest;
    assert ([c] + rest)[..|rest| + 1] == [c] + rest;
    assert Received(p, [c] + rest, |rest| + 1) == t + Concat(rest);
    Lines.ResumeParts(t, Concat(rest), NewLine);
  }

  /** A well-formed chunking seen after its first chunk is a well-formed chunking of the rest. */
  lemma ChunkingAfterFirst(parse: Parser, p: string, c: string, rest: seq<string>)
    requires Chunking(parse, p, [c] + rest)
    ensures AllPlainRecordLines(parse, Lines.Complete(p + c, NewLine))
    ensures |rest| == 0 ==> Unfinished(parse, p + c)
    ensures |rest| > 0 ==> MidLine(parse, p + c) && Chunking(parse, Lines.Pending(p + c, NewLine), rest)
  {
    var chunks := [c] + rest;
    var t := p + c;
    var next := Lines.Pending(t, NewLine);
    var body := Received(p, chunks, |chunks|);
    var restBody := Received(next, rest, |rest|);
    var closedHere := Lines.Complete(t, NewLine);
    var closedRest := Lines.Complete(restBody, NewLine);
    BodyAfterFirst(p, c, rest);
    assert AllPlainRecordLines(parse, closedHere) && AllPlainRecordLines(parse, closedRest) by {
      AllPlainRecordLinesAppend(parse, closedHere, closedRest);
    }
    assert Received(p, chunks, 1) == t by {
      ConcatCons(c, rest, 0);
      assert rest[..0] == [];
    }
    if |rest| > 0 {
      assert MidLine(parse, Received(p, chunks, 1));
      MidLinesAfterFirst(parse, p, c, rest);
    }
  }

  lemma AllPlainRecordLinesAppend(parse: Parser, a: seq<string>, b: seq<string>)
    requires AllPlainRecordLines(parse, a + b)
    ensures AllPlainRecordLines(parse, a) && AllPlainRecordLines(parse, b)
  {
    assert forall i :: 0 <= i < |a| ==> (a + b)[i] == a[i];
    assert forall i :: 0 <= i < |b| ==> (a + b)[|a| + i] == b[i];
  }

  /** Every cut after the first chunk stops mid-line when seen from the first chunk's unfinished line. */
  lemma MidLinesAfterFirst(parse: Parser, p: string, c: string, rest: seq<string>)
    requires forall i :: 1 <= i < |[c] + rest| ==> MidLine(parse, Received(p, [c] + rest, i))
    ensures forall i :: 1 <= i < |rest| ==> MidLine(parse, Received(Lines.Pending(p + c, NewLine), rest, i))
  {
    var t := p + c;
    var next := Lines.Pending(t, NewLine);
    forall i | 1 <= i < |rest|
      ensures MidLine(parse, Received(next, rest, i))
    {
      ConcatCons(c, rest, i);
      assert Received(p, [c] + rest, i + 1) == t + Concat(rest[..i]);
      assert MidLine(parse, Received(p, [c] + rest, i + 1));
      Lines.ResumeParts(t, Concat(rest[..i]), NewLine);
    }
  }

  /** One data event for each of `n` chunks, then the end of the stream. */
  predicate DataThenEnd(events: seq<Event>, n: nat) {
    && |events| == n + 1
    && (forall i :: 0 <= i < n ==> events[i].Data?)
    && events[n] == End
  }

  /** The remainder the activity framer leaves for a body: its unfinished line, undefined when there is none. */
  function Leftover(body: string): Option<string> {
    var pending := Lines.Pending(body, NewLine);
    if pending == "" then None else Some(pending)
  }

  lemma DataThenEndCons(event: Event, events: seq<Event>, n: nat)
    requires event.Data? && DataThenEnd(events, n)
    ensures DataThenEnd([event] + events, n + 1)
  {
    var all := [event] + events;
    assert forall i :: 1 <= i < n + 1 ==> all[i] == events[i - 1];
  }

  /** The last chunk of a well-formed body: one batch, then the end. */
  lemma RunLastValid(parse: Parser, p: string, c: string)
    requires NewLine !in p
    requires Chunking(parse, p, [c])
    ensures var (final, events) := RunFrom(Some(ActivityProcessor), parse, Some(p), [c]);
      && DataThenEnd(events, 1)
      && Batches(events) == Parsed(parse, Lines.Complete(p + c, NewLine))
      && final == Leftover(p + c)
  {
    assert [c] + [] == [c];
    ChunkingAfterFirst(parse, p, c, []);
    StepValid(parse, p, c);
    assert [c][1..] == [];
    var batch := Parsed(parse, Lines.Complete(p + c, NewLine));
    BatchesCons(Data(batch), [End]);
    assert Batches([End]) == [] + Batches([]);
    assert batch + [] == batch;
  }

  /**
   Streaming a well-formed body through the activity framer from a stored
   unfinished line `p`: one data event per chunk, then the end; together the
   batches hold the records of every closed line, in order; the last unfinished
   line is left stored and is never emitted.
   */
  lemma {:induction false} RunFromValid(parse: Parser, p: string, chunks: seq<string>)
    requires NewLine !in p
    requires Chunking(parse, p, chunks)
    ensures var body := Received(p, chunks, |chunks|);
      var (final, events) := RunFrom(Some(ActivityProcessor), parse, Some(p), chunks);
      && DataThenEnd(events, |chunks|)
      && Batches(events) == Parsed(parse, Lines.Complete(body, NewLine))
      && (|chunks| > 0 ==> final == Leftover(body))
    decreases |chunks|
  {
    var body := Received(p, chunks, |chunks|);
    if |chunks| == 0 {
      assert body == p;
      Lines.SplitSeparatorFree(p, NewLine);
      assert Lines.Complete(p, NewLine) == [];
      assert Batches([End]) == [] + Batches([]);
    } else if |chunks| == 1 {
      var c := chunks[0];
      assert chunks == [c];
      assert body == p + c by {
        ConcatCons(c, [], 0);
        assert [c][1..] == [];
      }
      RunLastValid(parse, p, c);
    } else {
      var c, rest := chunks[0], chunks[1..];
      assert chunks == [c] + rest;
      var next := Lines.Pending(p + c, NewLine);
      assert NewLine !in next && Chunking(parse, next, rest) by {
        ChunkingAfterFirst(parse, p, c, rest);
      }
      RunFromValid(parse, next, rest);
      RunFromValidCons(parse, p, c, rest);
    }
  }

  /** What `RunFromValid` promises for a stream fed `chunks` from a stored unfinished line `p`. */
  predicate StreamsClosedLines(parse: Parser, p: string, chunks: seq<string>) {
    var body := Received(p, chunks, |chunks|);
    var r := RunFrom(Some(ActivityProcessor), parse, Some(p), chunks);
    && DataThenEnd(r.1, |chunks|)
    && Batches(r.1) == Parsed(parse, Lines.Complete(body, NewLine))
    && (|chunks| > 0 ==> r.0 == Leftover(body))
  }

  /** The step of `RunFromValid`: a first chunk that stops mid-line, in front of a stream that behaves. */
  lemma RunFromValidCons(parse: Parser, p: string, c: string, rest: seq<string>)
    requires NewLine !in p && |rest| > 0
    requires Chunking(parse, p, [c] + rest)
    requires StreamsClosedLines(parse, Lines.Pending(p + c, NewLine), rest)
    ensures StreamsClosedLines(parse, p, [c] + rest)
  {
    var chunks := [c] + rest;
    var body := Received(p, chunks, |chunks|);
    var t := p + c;
    var next := Lines.Pending(t, NewLine);
    var restBody := Received(next, rest, |rest|);
    var batch := Parsed(parse, Lines.Complete(t, NewLine));
    assert Step(Some(ActivityProcessor), parse, Some(p), c) == (Some(next), Data(batch)) by {
      ChunkingAfterFirst(parse, p, c, rest);
      StepValid(parse, p, c);
    }
    var after := RunFrom(Some(ActivityProcessor), parse, Some(next), rest);
    assert RunFrom(Some(ActivityProcessor), parse, Some(p), chunks) == (after.0, [Data(batch)] + after.1) by {
      assert chunks[0] == c && chunks[1..] == rest;
    }
    assert Lines.Complete(body, NewLine) == Lines.Complete(t, NewLine) + Lines.Complete(restBody, NewLine)
        && Lines.Pending(body, NewLine) == Lines.Pending(restBody, NewLine) by {
      BodyAfterFirst(p, c, rest);
    }
    ParsedAppend(parse, Lines.Complete(t, NewLine), Lines.Complete(restBody, NewLine));
    BatchesCons(Data(batch), after.1);
    DataThenEndCons(Data(batch), after.1, |rest|);
  }

  /**
   Chunk boundaries do not matter: a well-formed body cut into chunks, each but
   the last stopping in the middle of a line, is streamed as one data event per
   chunk and then the end, and the batches together are exactly the records the
   buffered activity framer returns for the whole body, in the same order; with a
   final newline they are also what `listProcess` returns. The stream is left
   holding the body's unfinished line, which no event ever carries.
   */
  lemma StreamingMatchesBuffered(parse: Parser, chunks: seq<string>)
    requires Chunking(parse, "", chunks)
    ensures var body := Concat(chunks);
      var (final, events) := Run(Some(ActivityProcessor), parse, chunks);
      && DataThenEnd(events, |chunks|)
      && ActivityProcess(parse, Some(body)) == Records(Batches(events), Leftover(body))
      && (Lines.Pending(body, NewLine) == "" ==> ListProcess(parse, Some(body)) == Records(Batches(events), None))
      && (|chunks| > 0 ==> final == Leftover(body))
  {
    var body := Concat(chunks);
    assert Received("", chunks, |chunks|) == body by {
      assert chunks[..|chunks|] == chunks;
      assert "" + body == body;
    }
    RunFromValid(parse, "", chunks);
    assert Unfinished(parse, body) by {
      if |chunks| == 0 {
        assert body == "";
        assert Lines.Split(body, NewLine) == [""];
      }
    }
    ValidBody(parse, body);
  }

  /**
   A record cut by a chunk boundary is completed by the next write: when the
   stored unfinished line `p` and the head `tail` of the next chunk together parse
   to `j`, the next batch starts with `j`, followed by the records of the lines
   after it; the remainder becomes the last of those lines that does not parse.
   */
  lemma RemainderCompletes(parse: Parser, p: string, tail: string, more: string, j: Json)
    requires p != "" && NewLine !in p && NewLine !in tail
    requires parse(p + tail) == Some(j) && !IsServiceError(j)
    ensures var after := Lines.Split(more, NewLine);
      Step(Some(ActivityProcessor), parse, Some(p), tail + [NewLine] + more) ==
        (LastFailure(parse, after), Data([j] + Parsed(parse, after)))
  {
    var line := p + tail;
    var after := Lines.Split(more, NewLine);
    assert p + (tail + [NewLine] + more) == line + [NewLine] + more;
    assert NewLine !in line;
    Lines.SplitClosedLine(line, more, NewLine);
    var lines := [line] + after;
    assert lines[1..] == after;
    assert Parsed(parse, lines) == [j] + Parsed(parse, after);
    assert LastFailure(parse, lines) == LastFailure(parse, after);
  }

  /** The parser rejects any text that begins with `undefined`, as `JSON.parse` does. */
  ghost predicate RejectsUndefined(parse: Parser) {
    forall s: string :: |s| >= 9 && s[..9] == "undefined" ==> parse(s).None?
  }

  /** After an undefined remainder, the first line of a chunk is framed as `undefined` followed by that line. */
  lemma UndefinedPrefix(c: string)
    ensures var parts := Lines.Split(c, NewLine);
      Lines.Split(ToText(None) + c, NewLine) == ["undefined" + parts[0]] + parts[1..]
  {
    var u := ToText(None);
    assert NewLine !in u;
    Lines.SplitPrefixed(u, c, NewLine);
  }

  /**
   `listProcess` never leaves a remainder, so once a stream of the list
   operation has emitted its first batch the stored remainder is undefined, the
   second write frames the text `undefined` followed by the chunk, and that
   write throws: nothing after the first chunk is ever delivered.
   */
  lemma ListStreamStopsAfterFirstBatch(parse: Parser, chunks: seq<string>)
    requires RejectsUndefined(parse)
    requires |chunks| >= 2
    requires Step(Some(ListProcessor), parse, Fresh, chunks[0]).1.Data?
    ensures Run(Some(ListProcessor), parse, chunks).1 ==
      [Step(Some(ListProcessor), parse, Fresh, chunks[0]).1, Crash]
  {
    var first := Step(Some(ListProcessor), parse, Fresh, chunks[0]);
    assert first.0 == None;
    var rest := chunks[1..];
    ListWriteAfterUndefined(parse, rest[0]);
    assert RunFrom(Some(ListProcessor), parse, None, rest) == (None, [Crash]);
  }

  /** A write to a list stream whose remainder is undefined throws. */
  lemma ListWriteAfterUndefined(parse: Parser, c: string)
    requires RejectsUndefined(parse)
    ensures Step(Some(ListProcessor), parse, None, c) == (None, Crash)
  {
    UndefinedPrefix(c);
    var lines := Lines.Split(ToText(None) + c, NewLine);
    UndefinedHeadFails(parse, lines[0], Lines.Split(c, NewLine)[0]);
    assert !AllParse(parse, lines);
  }

  /** The line `undefined` followed by anything does not parse. */
  lemma UndefinedHeadFails(parse: Parser, head: string, rest: string)
    requires RejectsUndefined(parse)
    requires head == "undefined" + rest
    ensures Fails(parse, head)
  {
    assert head[..9] == "undefined";
  }

  /**
   After an undefined remainder the activity stream loses the next chunk's first
   line: it is framed behind `undefined`, so it never becomes a record, and the
   stream cannot return to an undefined remainder on that write.
   */
  lemma ActivityLosesLineAfterUndefined(parse: Parser, c: string)
    requires RejectsUndefined(parse)
    ensures var (next, event) := Step(Some(ActivityProcessor), parse, None, c);
      event.Data? ==> event.batch == Parsed(parse, Lines.Split(c, NewLine)[1..]) && next.Some?
  {
    var parts := Lines.Split(c, NewLine);
    UndefinedPrefix(c);
    var lines := Lines.Split(ToText(None) + c, NewLine);
    UndefinedHeadFails(parse, lines[0], parts[0]);
    assert lines[1..] == parts[1..];
    assert Parsed(parse, lines) == [] + Parsed(parse, parts[1..]);
  }
}

=== FILE: wrappers.dfy ===
/** Optional values. `None` plays the part of JavaScript's `undefined`. */
module Wrappers {

  datatype Option<+T> = None | Some(value: T)
}
